=== FILE: README.md ===
# x11buttons — a Dafny model of the button panel's dispatch core

`x11buttons` is a small X11 client. It opens a 340×130 overlay window in the
centre of the screen and gives it six child windows, one per button of a
compiled-in registry ("S", "D", "A", "H", "L", "Combo"). It then waits for
events. A mouse press on a button window makes the panel synthesise a press
and a release key event for each of that button's key symbols, and send them
to the window that owns the `_NET_ACTIVE_WINDOW` selection. A
`WM_DELETE_WINDOW` client message ends the program with status 0.

This project models that core as pure functions over immutable data and
proves properties of it:

- `XTypes`: window ids, atoms, key symbols and key codes. Also the C integer
  widths they travel in, and the `long`/`unsigned long` casts applied to the
  close message's atom.
- `XServer`: the slice of server state the panel changes. This is the
  created windows with their parent, rectangle, name, WM protocols, event
  mask and mapped flag. New window ids come from a counter, above the root window.
- `Keys`: `sendKeys`, the key injector, with the keyboard mapping as a
  parameter.
- `Registry`: the six buttons.
- `Overlay`: `createWindow` with its centring arithmetic in C truncating
  division, `createButton`, and the setup loop that fills `buttonWindows`.
  `createButton` appears twice: once as written and once as evidently
  intended (see "## Findings"). The rest of the model uses the intended
  version.
- `Dispatch`: the event loop. It is a two-state machine (Running,
  Terminated) folded over a finite trace of events. The module has the
  first-match lookup and the loop as written, with its inner scan and
  `break`.
- `Program`: `main` wired together. It does the setup, runs the loop over a
  trace, and exits with status 0 after a close request.

## Model

| member | source | states |
|---|---|---|
| XTypes.AsLong | x11buttons.cpp:152 | the `(long)` cast of an atom keeps values below 2^63 and otherwise subtracts 2^64; the result is negative exactly when the atom's top bit is set |
| XTypes.AsULong | x11buttons.cpp:152 | the inverse conversion keeps non-negative values and adds 2^64 to negative ones |
| XTypes.LongRoundTrip | x11buttons.cpp:152 | the two casts are mutually inverse, so comparing `data.l[0]` with `(long)atom` is comparing the atom with `data.l[0]` read as unsigned |
| XTypes.AsLongInjective | x11buttons.cpp:152 | two atoms cast to `long` are equal exactly when the atoms are equal |
| XServer.CreateSimpleWindow | x11buttons.cpp:32-33 | a new window gets a fresh id (not `None`, not the root, not any earlier window); it has the given parent and rectangle and is unnamed, without protocols and unmapped; no earlier window changes |
| XServer.Update | x11buttons.cpp:36-41 | setting an attribute of a created window changes that window only; ids, screen and root stay the same |
| XServer.StoreName | x11buttons.cpp:36 | the title of the window becomes the given name; nothing else about it or any other window changes |
| XServer.SetWMProtocols | x11buttons.cpp:37-38 | the window's WM protocols become the given list; nothing else about it or any other window changes |
| XServer.SelectInput | x11buttons.cpp:46-66 | the window's event mask becomes the given mask; nothing else about it or any other window changes (`createButton` never makes this call, see Findings) |
| XServer.MapWindow | x11buttons.cpp:41 | the window becomes mapped; nothing else about it or any other window changes |
| XServer.ExtendsTransitive | x11buttons.cpp:117-123 | creating windows in several steps keeps every earlier window unchanged |
| Keys.SendKeys | x11buttons.cpp:69-95 | for `L` keys, exactly `2·L` events; event `2p` is the press and `2p+1` the release of key `p`, both carrying the translation of `keys[p]`, each `XSendEvent` call naming the target as its destination |
| Keys.SendKeysLoop | x11buttons.cpp:75-94 | the loop as written, which reuses one event structure and switches its type between the two sends, produces exactly the `SendKeys` stream |
| Keys.SendKeysPaired | x11buttons.cpp:77-93 | whatever the target, every `XSendEvent` call names it as its destination, is propagated, carries its kind's mask and no subwindow, and events alternate press and release, with each pair sharing one key code |
| Keys.PressedCodesOfSendKeys | x11buttons.cpp:83-89 | the press events, read back in order, are the key codes of the keys in order: nothing is reordered, lost or interleaved |
| Keys.SendKeysAppend | x11buttons.cpp:83-94 | injecting `a + b` is injecting `a` and then `b` |
| Registry.RegistryWellFormed | x11buttons.cpp:107-114 | six buttons; each has a positive size and at least one key, and lies inside the 340×130 overlay; no two overlap |
| Registry.RegistryKeys | x11buttons.cpp:108-113 | the first five buttons send S, D, A, H and L; "Combo" sends L, H three times |
| Overlay.CDiv | x11buttons.cpp:30-31 | C division by a positive divisor truncates toward zero: the remainder has the sign of the dividend and is smaller than the divisor |
| Overlay.CDivVersusEuclidean | x11buttons.cpp:30-31 | truncating and Euclidean division by 2 agree except on negative odd dividends, where truncation gives one more |
| Overlay.CentreOrigin | x11buttons.cpp:30-31 | when the window fits on the screen, the centred origin keeps it entirely on screen; the origin always fits in an `int` |
| Overlay.CentredWithinOnePixel | x11buttons.cpp:30-31 | the two margins differ by at most one pixel; the odd pixel goes after the window when it fits and before it when it does not |
| Overlay.CreateWindow | x11buttons.cpp:24-43 | a fresh child of the root, of the requested size, centred by truncating division, named "X11 Buttons", with `WM_DELETE_WINDOW` as its only protocol, and mapped |
| Overlay.CreateButton | x11buttons.cpp:46-66 | as intended: a fresh mapped child of the overlay with exactly the button's rectangle and no name, with `ButtonPress` selected so clicks reach the loop |
| Overlay.CreateButtonUnselected | x11buttons.cpp:52-64 | the window part as written: the same fresh mapped child, with no event selected |
| Overlay.ButtonPressSelection | x11buttons.cpp:46-66 | as written, neither the button window nor the overlay selects `ButtonPress`, so no click on a button is reported to the program; the intended button window selects it |
| Overlay.CreateButtonAsWritten | x11buttons.cpp:46-66 | as written, every `createButton` call crashes in the label block, after the new child window was created and before it was mapped: the crash leaves a fresh, unmapped child of `parent` with the button's rectangle and no event selected |
| Overlay.LabelBlockCrashes | x11buttons.cpp:57-62 | as written, the setup ends in the first `createButton` call (line 122): the overlay is mapped, the first button window exists unmapped, and no other window was created |
| Overlay.CreateButtons | x11buttons.cpp:120-123 | one window per button, in registry order: `ids[i]` is the `i`th fresh id and a mapped child with `buttons[i]`'s rectangle; no earlier window changes |
| Overlay.ConsAligned | x11buttons.cpp:121-122 | one turn of the setup loop keeps the positional alignment of `buttonWindows` with `buttons` |
| Overlay.ConsecutiveIncreasing | x11buttons.cpp:120-123 | the button window ids are strictly increasing, so an id names at most one button |
| Dispatch.FindFrom | x11buttons.cpp:141-147 | the scan from position `i` finds the first later position holding the clicked window, or reports that none does |
| Dispatch.FindButton | x11buttons.cpp:141-147 | the lookup finds the least position of the clicked window, and finds nothing exactly when the window is not a button window |
| Dispatch.ScanWindows | x11buttons.cpp:141-147 | the counting scan with `break`, as written, gives the same answer as the lookup |
| Dispatch.Step | x11buttons.cpp:139-156 | a close request stops the loop and nothing else does; a press on the first button window matching `w` injects that button's keys; a press elsewhere, and any other event, sends nothing |
| Dispatch.Loop | x11buttons.cpp:134-157 | a Terminated state reads nothing more; a Running result has read every event. Its helper `Feed` is one turn's bookkeeping: once Terminated nothing changes; otherwise one more event is counted as read, and the loop either stops or appends what was sent |
| Dispatch.Run | x11buttons.cpp:133-157 | from the start, the loop reads at most the whole trace; if still Running it has read all of it, and if Terminated it has read at least one event |
| Dispatch.LoopStopsAtFirstClose | x11buttons.cpp:134-157 | from Running the loop ends exactly when the trace holds a close request; the last event it reads is a close request and no earlier event is one |
| Dispatch.RunStopsAtFirstClose | x11buttons.cpp:134-157 | the same, for a run from the start |
| Dispatch.LoopPaired | x11buttons.cpp:139-147 | the loop keeps the invariant that everything sent so far is well-formed press/release pairs whose `XSendEvent` calls name the target as their destination |
| Dispatch.RunPaired | x11buttons.cpp:139-147 | everything a run sends is well-formed press/release pairs whose `XSendEvent` calls name the target as their destination |
| Dispatch.PairedAppend | x11buttons.cpp:144 | two well-formed injection streams, one after the other, form a well-formed stream |
| Dispatch.LoopAppend | x11buttons.cpp:134-157 | feeding `a + b` is feeding `a` and then `b` |
| Dispatch.FeedShift | x11buttons.cpp:134-157 | one turn of the loop commutes with prefixing what an earlier Running run sent and read |
| Dispatch.LoopShiftFrom | x11buttons.cpp:134-157 | the loop keeps no state besides Running/Terminated, so any run shifted by a Running prefix is the same run shifted |
| Dispatch.LoopShift | x11buttons.cpp:134-157 | from any Running state the loop does what it does from the start, after what was already sent and read |
| Dispatch.RunAppend | x11buttons.cpp:134-157 | when `a` leaves the loop Running, running `a + b` sends `a`'s output and then `b`'s, and reads all of `a` and then what `b`'s run reads |
| Dispatch.RunIgnoresAfterClose | x11buttons.cpp:151-156 | once the loop has terminated, no later event is read or dispatched |
| Dispatch.CloseTerminates | x11buttons.cpp:151-156 | after `a` with no close request, a close request ends the loop: it has read exactly `a` and the request, and sent only what `a` caused |
| Dispatch.LoopQuiet | x11buttons.cpp:139-157 | events that are neither close requests nor presses on button windows send nothing and leave the loop Running |
| Dispatch.PressOnButton | x11buttons.cpp:139-146 | one press on the first window matching `buttonWindows[i]` injects exactly `buttons[i].keys` once |
| Dispatch.PressTwice | x11buttons.cpp:139-146 | pressing the same button twice injects its keys twice, identically |
| Dispatch.RunSnoc | x11buttons.cpp:134-157 | reading one more event while Running applies that event's reaction to the state through `Feed` |
| Dispatch.EventLoop | x11buttons.cpp:133-157 | the loop as written, with its inner scan, `sendKeys` loop and `break`, computes the outcome `Run` states |
| Program.Setup | x11buttons.cpp:106-130 | the overlay is a fresh mapped child of the root, centred, titled and with the delete protocol; the six button windows line up with the registry, are distinct, and are not the overlay, the root or `None` |
| Program.Main | x11buttons.cpp:98-163 | the program exits with status 0 exactly when the trace holds a close request; otherwise it has read every event and is still waiting; every `XSendEvent` call names the target as its destination |
| Program.ClickInjectsButtonKeys | x11buttons.cpp:139-146 | after setup, a click on the `i`th button window injects exactly the `i`th button's keys, every `XSendEvent` call naming the target whatever it is, and the loop keeps running |
| Program.ComboExpansion | x11buttons.cpp:113 | "Combo" expands to 12 events: press and release of L, H, L, H, L, H in that order |
| Program.ClickComboSendsTwelve | x11buttons.cpp:113 | a click on "Combo" sends exactly those 12 events to the target |
| Program.ClickElsewhereIgnored | x11buttons.cpp:139-148 | a press on the overlay, on the root or on any window that is not a button window sends nothing, and the loop stays Running |
| Program.ShutdownIgnoresQueuedEvents | x11buttons.cpp:151-162 | after the first close request the program exits with status 0; events queued after it are not read and change nothing |

## Left out

- Xlib I/O is not modelled as communication with a server. This covers
  `XOpenDisplay`, `XCloseDisplay`, `XInternAtom`, `XSendEvent` and the
  colours of `XCreateSimpleWindow`. Window creation, naming, protocols and
  mapping are modelled as changes to a window table. Sent events are the
  output of the model. The interned `WM_DELETE_WINDOW` atom is a field of
  the display.
- `XNextEvent` blocks. The model reads a finite trace instead. When the
  trace runs out while the loop is Running, `Main` reports `Waiting` (the
  process would still be blocked).
- The trace is taken as given. The model does not predict which events the
  server reports. As written the program never calls `XSelectInput`, so no
  `ButtonPress` would reach it (see "## Findings"). The dispatch model
  assumes the corrected `createButton`, which selects `ButtonPress`.
- `XKeysymToKeycode` depends on the server's keyboard mapping. The mapping
  is a parameter (a map from key symbol to key code). A key symbol without a
  key yields key code 0, which means "no key". Keys.KeysymToKeycode is only
  this lookup and has no row of its own.
- The target comes from the `XGetSelectionOwner` query on
  `_NET_ACTIVE_WINDOW` (lines 127-130). It is a parameter, possibly `None`
  or a stale id, with no validity semantics.
- Where the server delivers a sent event is not modelled. The model records
  the destination argument of each `XSendEvent` call. For `XSendEvent` the
  destination 0 (`None`) means `PointerWindow` and 1 means `InputFocus`, so
  with such a target the server, not the program, picks the recipient. A
  `None` target is the usual case, because `_NET_ACTIVE_WINDOW` is normally a
  root-window property rather than an owned selection.
- The display-open failure path (lines 101-104, exit status -1) is I/O error
  handling and is not modelled.
- The label block in `createButton` (lines 57-62) passes NULL for three
  out-parameters of `XTextExtents`, which writes through them, so the
  process would crash in the first `createButton` call (see "## Findings").
  That `XTextExtents` stores through its out-parameters without a NULL
  check is how libX11 behaves. The model writes it into the definition of
  `Overlay.ExtentsReturns` as a premise; Dafny does not prove it. The rest of
  the model follows the evident intent: the label is neither measured nor
  drawn, and the block has no effect.
- Pixel hit-testing is not modelled. The server decides which window a
  click lands on, and the program matches by window identity only.
- The end of `main` (lines 157-163) has misplaced braces (line 158 closes `main` early, leaving the block at
  lines 160-163 at file scope) and lacks a
  semicolon after `XCloseDisplay(display)`, so it does not compile as
  written. The model follows the evident intent: leave the loop, close the
  display, return 0.
- Window ids are modelled as a counter that starts above the root. A real
  server hands out ids from the client's resource range. The model relies
  only on their being fresh and distinct.
- The pointer coordinates (all 0) and the display field of the synthetic
  key events are constants and are not carried.
- Keys.SendKeys: the `state` (modifier mask) and `same_screen` fields of the
  synthetic `XKeyEvent` are never set by `sendKeys`, so the source sends
  uninitialised values in them. The model does not carry these fields, and
  promises nothing about them.
- Program.Main does not model the process's exit as server state: the
  display being closed is implied by `Exited(0)`.
- Program.Main does not model X protocol errors or Xlib's default error
  handler, which prints the error and exits with status 1. `target` is read
  once (line 127) and never refreshed. If that window no longer exists,
  each `XSendEvent` (lines 89, 93) draws a `BadWindow` error, and the next
  `XNextEvent` (line 136) ends the process with status 1. The contract
  (exit 0 exactly on a close request, otherwise waiting) therefore holds
  only when every `XSendEvent` destination is `None`, `InputFocus` or a live
  window.
- Invalid window ids passed to `XStoreName`, `XSetWMProtocols`,
  `XSelectInput` or `XMapWindow` leave the window table alone in the model.
  The resulting `BadWindow` error is not modelled.

## Findings

| source | as written | input that shows it | evidently intended | confidence | as-written member | corrected member |
|---|---|---|---|---|---|---|
| x11buttons.cpp:57-62 | `XTextExtents` gets NULL for the direction, font-ascent and font-descent out-parameters, and stores through all three | any button: the first `createButton` call (line 122) crashes before the window is mapped | measure the label, or nothing, without crashing; the computed ascent is never used | high; not executed | Overlay.CreateButtonAsWritten (with Overlay.LabelBlockCrashes) | Overlay.CreateButton |
| x11buttons.cpp:46-66 | no `XSelectInput` on the button windows or the overlay, so their event mask stays empty | a click on any button window: the server reports no `ButtonPress` to the program, so line 139 never fires | select `ButtonPressMask` on each button window | high; not executed | Overlay.CreateButtonUnselected (with Overlay.ButtonPressSelection) | Overlay.CreateButton |

=== FILE: dispatch.dfy ===
/** The dispatch loop: a two-state machine (Running, Terminated) folded over
    the events the server delivers. A button press on a registered button
    window injects that button's keys into the target; a client message
    carrying the `WM_DELETE_WINDOW` atom stops the loop; everything else is
    ignored. */
module Dispatch {
  import opened XTypes
  import opened Keys
  import opened Registry

  /** An event as `XNextEvent` delivers it, reduced to the fields the loop
      reads. `OtherEvent` stands for every event whose type is neither
      `ButtonPress` nor `ClientMessage`. */
  datatype XEvent =
    | ButtonPressEvent(window: WindowId)
    | ClientMessageEvent(window: WindowId, messageType: Atom, data0: Long)
    | OtherEvent

  /** What the loop works with once set up: the registry, the button windows
      created for it (same positions), the target window, the root window
      (copied into every synthetic event), the `WM_DELETE_WINDOW` atom and the
      keyboard mapping. */
  datatype Context = Context(
    buttons: seq<Button>,
    windows: seq<WindowId>,
    target: WindowId,
    root: WindowId,
    wmDeleteWindow: Atom,
    keymap: Keymap)

  /** Every button window has a registry entry at its position, so
      `buttons[i]` exists whenever `buttonWindows[i]` does. */
  predicate Covered(ctx: Context) {
    |ctx.windows| <= |ctx.buttons|
  }

  /** `i` is the least position at which `w` occurs in `windows`. */
  predicate FirstMatch(windows: seq<WindowId>, w: WindowId, i: int) {
    && 0 <= i < |windows|
    && windows[i] == w
    && forall j :: 0 <= j < i ==> windows[j] != w
  }

  /** The inner loop's scan from position `i` on: the first position at or
      after `i` holding `w`, if any. */
  function FindFrom(windows: seq<WindowId>, w: WindowId, i: nat): (r: Option<nat>)
    requires i <= |windows|
    ensures r.Some? ==> i <= r.value < |windows| && windows[r.value] == w
    ensures r.Some? ==> forall j :: i <= j < r.value ==> windows[j] != w
    ensures r.None? ==> forall j :: i <= j < |windows| ==> windows[j] != w
    decreases |windows| - i
  {
    if i == |windows| then None
    else if windows[i] == w then Some(i)
    else FindFrom(windows, w, i + 1)
  }

  /** The inner loop of the dispatcher (the scan with `break`): the first
      button window equal to the clicked window, or nothing when the clicked
      window is not a button window. */
  function FindButton(windows: seq<WindowId>, w: WindowId): (r: Option<nat>)
    ensures r.Some? ==> FirstMatch(windows, w, r.value)
    ensures r.None? <==> w !in windows
  {
    FindFrom(windows, w, 0)
  }

  /** The message is the window manager's request to close the overlay: a
      client message whose first data word is the `WM_DELETE_WINDOW` atom.
      The message type is not consulted. */
  predicate IsClose(wmDeleteWindow: Atom, e: XEvent) {
    e.ClientMessageEvent? && AsULong(e.data0) == wmDeleteWindow
  }

  /** How the loop reacts to one event: go on, having sent `sent`, or leave. */
  datatype Reaction = Continue(sent: seq<SentEvent>) | Stop

  /** One iteration of the event loop. */
  function Step(ctx: Context, e: XEvent): (r: Reaction)
    requires Covered(ctx)
    ensures r.Stop? <==> IsClose(ctx.wmDeleteWindow, e)
    ensures forall i :: e.ButtonPressEvent? && FirstMatch(ctx.windows, e.window, i) ==>
      r == Continue(SendKeys(ctx.target, ctx.root, ctx.keymap, ctx.buttons[i].keys))
    ensures e.ButtonPressEvent? && e.window !in ctx.windows ==> r == Continue([])
    ensures !e.ButtonPressEvent? && !IsClose(ctx.wmDeleteWindow, e) ==> r == Continue([])
  {
    match e
    case ButtonPressEvent(w) =>
      (match FindButton(ctx.windows, w)
       case Some(i) => Continue(SendKeys(ctx.target, ctx.root, ctx.keymap, ctx.buttons[i].keys))
       case None => Continue([]))
    case ClientMessageEvent(_, _, data0) =>
      LongRoundTrip(ctx.wmDeleteWindow, data0);
      if data0 == AsLong(ctx.wmDeleteWindow) then Stop else Continue([])
    case OtherEvent => Continue([])
  }

  datatype LoopState = Running | Terminated

  /** The loop's state after some events: Running or Terminated, every
      event sent to the target so far, and how many events `XNextEvent` has
      returned. */
  datatype Outcome = Outcome(state: LoopState, sent: seq<SentEvent>, consumed: nat)

  /** The state before the first `XNextEvent`. */
  const START: Outcome := Outcome(Running, [], 0)

  /** One turn of the loop: once Terminated nothing more is read; otherwise
      one more event has been read, and its reaction either stops the loop or
      adds what it sent. */
  function Feed(o: Outcome, r: Reaction): Outcome {
    if o.state == Terminated then o
    else
      match r
      case Stop => o.(state := Terminated, consumed := o.consumed + 1)
      case Continue(out) => o.(sent := o.sent + out, consumed := o.consumed + 1)
  }

  /** The event loop fed a finite trace from state `o`. While Running it
      reads one event per turn; once Terminated it reads nothing more. */
  function Loop(ctx: Context, o: Outcome, events: seq<XEvent>): (r: Outcome)
    requires Covered(ctx)
    ensures o.consumed <= r.consumed <= o.consumed + |events|
    ensures r.state == Running ==> o.state == Running && r.consumed == o.consumed + |events|
    ensures o.state == Terminated ==> r == o
    decreases |events|
  {
    if |events| == 0 then o
    else Loop(ctx, Feed(o, Step(ctx, events[0])), events[1..])
  }

  /** The event loop over a finite trace, starting Running. If it is still
      Running at the end, the real loop would block in `XNextEvent`. */
  function Run(ctx: Context, events: seq<XEvent>): (r: Outcome)
    requires Covered(ctx)
    ensures r.consumed <= |events|
    ensures r.state == Running ==> r.consumed == |events|
    ensures r.state == Terminated ==> 0 < r.consumed
  {
    Loop(ctx, START, events)
  }

  /** No event in the trace is a close request. */
  predicate NoClose(wmDeleteWindow: Atom, events: seq<XEvent>) {
    forall k :: 0 <= k < |events| ==> !IsClose(wmDeleteWindow, events[k])
  }

  /** The loop stops at the FIRST close request: from a Running state it
      terminates exactly when the trace holds one, the last event it read is
      one, and none of the events before it is. */
  lemma {:induction false} LoopStopsAtFirstClose(ctx: Context, o: Outcome, events: seq<XEvent>)
    requires Covered(ctx) && o.state == Running
    decreases |events|
    ensures Loop(ctx, o, events).state == Running <==> NoClose(ctx.wmDeleteWindow, events)
    ensures var r := Loop(ctx, o, events); var n := r.consumed - o.consumed;
      r.state == Terminated ==> 0 < n && IsClose(ctx.wmDeleteWindow, events[n - 1]) && NoClose(ctx.wmDeleteWindow, events[..n - 1])
  {
    if |events| > 0 {
      var o' := Feed(o, Step(ctx, events[0]));
      assert forall k :: 1 <= k < |events| ==> events[k] == events[1..][k - 1];
      if o'.state == Running {
        LoopStopsAtFirstClose(ctx, o', events[1..]);
        var r := Loop(ctx, o, events);
        var n := r.consumed - o.consumed;
        if r.state == Terminated {
          assert events[n - 1] == events[1..][n - 2];
          assert events[..n - 1][1..] == events[1..][..n - 2];
        }
      }
    }
  }

  /** The same, for a run from the start. */
  lemma RunStopsAtFirstClose(ctx: Context, events: seq<XEvent>)
    requires Covered(ctx)
    ensures Run(ctx, events).state == Running <==> NoClose(ctx.wmDeleteWindow, events)
    ensures var r := Run(ctx, events);
      r.state == Terminated ==> IsClose(ctx.wmDeleteWindow, events[r.consumed - 1]) && NoClose(ctx.wmDeleteWindow, events[..r.consumed - 1])
  {
    LoopStopsAtFirstClose(ctx, START, events);
  }

  /** The loop keeps the invariant that what it has sent is a well-formed
      stream of press/release pairs addressed to the target. */
  lemma {:induction false} LoopPaired(ctx: Context, o: Outcome, events: seq<XEvent>)
    requires Covered(ctx) && Paired(o.sent, ctx.target)
    ensures Paired(Loop(ctx, o, events).sent, ctx.target)
    decreases |events|
  {
    if |events| > 0 {
      var e := events[0];
      var r := Step(ctx, e);
      if o.state == Running && r.Continue? {
        assert Paired(r.sent, ctx.target) by {
          if e.ButtonPressEvent? && e.window in ctx.windows {
            var i := FindButton(ctx.windows, e.window).value;
            SendKeysPaired(ctx.target, ctx.root, ctx.keymap, ctx.buttons[i].keys);
          }
        }
        PairedAppend(o.sent, r.sent, ctx.target);
      }
      LoopPaired(ctx, Feed(o, r), events[1..]);
    }
  }

  /** All a run ever sends is well-formed press/release pairs to the target. */
  lemma RunPaired(ctx: Context, events: seq<XEvent>)
    requires Covered(ctx)
    ensures Paired(Run(ctx, events).sent, ctx.target)
  {
    LoopPaired(ctx, START, events);
  }

  /** Well-formed injection streams compose: one after another is again
      well formed. */
  lemma PairedAppend(a: seq<SentEvent>, b: seq<SentEvent>, target: WindowId)
    requires Paired(a, target) && Paired(b, target)
    ensures Paired(a + b, target)
  {
    var c := a + b;
    forall j | 0 <= j < |c|
      ensures c[j].destination == target && c[j].event.window == target
      ensures c[j].propagate && c[j].event.subwindow == NONE
      ensures c[j].mask == MaskFor(c[j].event.kind)
      ensures c[j].event.kind == (if j % 2 == 0 then Press else Release)
    {
      if j >= |a| {
        assert c[j] == b[j - |a|];
        assert (j - |a|) % 2 == j % 2;
      }
    }
    forall p | 0 <= p < |c| / 2
      ensures c[2 * p].event.keycode == c[2 * p + 1].event.keycode
    {
      if 2 * p >= |a| {
        var q := p - |a| / 2;
        assert c[2 * p] == b[2 * q] && c[2 * p + 1] == b[2 * q + 1];
      }
    }
  }

  /** Feeding `a + b` is feeding `a`, then `b`. */
  lemma {:induction false} LoopAppend(ctx: Context, o: Outcome, a: seq<XEvent>, b: seq<XEvent>)
    requires Covered(ctx)
    ensures Loop(ctx, o, a + b) == Loop(ctx, Loop(ctx, o, a), b)
    decreases |a|
  {
    if |a| == 0 {
      assert a + b == b;
    } else {
      assert (a + b)[0] == a[0];
      assert (a + b)[1..] == a[1..] + b;
      LoopAppend(ctx, Feed(o, Step(ctx, a[0])), a[1..], b);
    }
  }

  /** `r` read after `o`: `r`'s state, with `o`'s sends and reads before
      `r`'s. */
  function Shift(o: Outcome, r: Outcome): Outcome {
    Outcome(r.state, o.sent + r.sent, o.consumed + r.consumed)
  }

  /** One turn commutes with shifting by a Running prefix. */
  lemma FeedShift(o: Outcome, s: Outcome, r: Reaction)
    requires o.state == Running
    ensures Feed(Shift(o, s), r) == Shift(o, Feed(s, r))
  {
    if s.state == Running && r.Continue? {
      assert (o.sent + s.sent) + r.sent == o.sent + (s.sent + r.sent);
    }
  }

  /** The loop keeps no state besides Running/Terminated: started from `s`
      shifted by a Running prefix `o`, it does what it does from `s`, shifted
      by `o`. */
  lemma {:induction false} LoopShiftFrom(ctx: Context, o: Outcome, s: Outcome, events: seq<XEvent>)
    requires Covered(ctx) && o.state == Running
    ensures Loop(ctx, Shift(o, s), events) == Shift(o, Loop(ctx, s, events))
    decreases |events|
  {
    if |events| > 0 {
      var step := Step(ctx, events[0]);
      FeedShift(o, s, step);
      LoopShiftFrom(ctx, o, Feed(s, step), events[1..]);
    }
  }

  /** From any Running state the loop behaves as from the start, shifted by
      what was already sent and read. */
  lemma LoopShift(ctx: Context, o: Outcome, events: seq<XEvent>)
    requires Covered(ctx) && o.state == Running
    ensures var r := Run(ctx, events);
      Loop(ctx, o, events) == Outcome(r.state, o.sent + r.sent, o.consumed + r.consumed)
  {
    assert Shift(o, START) == o by {
      assert o.sent + [] == o.sent;
    }
    LoopShiftFrom(ctx, o, START, events);
  }

  /** Running the loop over `a` and then `b`, when `a` leaves it Running, is
      running it over `a + b`: the loop keeps no state between events
      besides Running/Terminated. */
  lemma RunAppend(ctx: Context, a: seq<XEvent>, b: seq<XEvent>)
    requires Covered(ctx)
    requires Run(ctx, a).state == Running
    ensures Run(ctx, a + b) == Outcome(Run(ctx, b).state, Run(ctx, a).sent + Run(ctx, b).sent, |a| + Run(ctx, b).consumed)
  {
    LoopAppend(ctx, START, a, b);
    LoopShift(ctx, Run(ctx, a), b);
  }

  /** Once the loop has terminated, no later event is read or dispatched. */
  lemma RunIgnoresAfterClose(ctx: Context, a: seq<XEvent>, b: seq<XEvent>)
    requires Covered(ctx)
    requires Run(ctx, a).state == Terminated
    ensures Run(ctx, a + b) == Run(ctx, a)
  {
    LoopAppend(ctx, START, a, b);
  }

  /** The close request stops the loop exactly once: with no earlier close
      request, the loop terminates on it, having read exactly the events up
      to and including it, and sends only what the earlier events caused. */
  lemma CloseTerminates(ctx: Context, a: seq<XEvent>, close: XEvent, b: seq<XEvent>)
    requires Covered(ctx)
    requires NoClose(ctx.wmDeleteWindow, a) && IsClose(ctx.wmDeleteWindow, close)
    ensures Run(ctx, a + [close] + b) == Outcome(Terminated, Run(ctx, a).sent, |a| + 1)
  {
    RunStopsAtFirstClose(ctx, a);
    RunAppend(ctx, a, [close]);
    RunIgnoresAfterClose(ctx, a + [close], b);
  }

  /** From a Running state, a trace with no close request and no press on a
      button window sends nothing and leaves the loop Running. */
  lemma {:induction false} LoopQuiet(ctx: Context, o: Outcome, events: seq<XEvent>)
    requires Covered(ctx) && o.state == Running
    requires forall k :: 0 <= k < |events| ==>
      !IsClose(ctx.wmDeleteWindow, events[k]) && !(events[k].ButtonPressEvent? && events[k].window in ctx.windows)
    ensures Loop(ctx, o, events) == o.(consumed := o.consumed + |events|)
    decreases |events|
  {
    if |events| > 0 {
      assert o.sent + [] == o.sent;
      LoopQuiet(ctx, o.(consumed := o.consumed + 1), events[1..]);
    }
  }

  /** A single press on the button window at the first position it occupies
      injects that button's keys and nothing else. */
  lemma PressOnButton(ctx: Context, i: nat)
    requires Covered(ctx)
    requires i < |ctx.windows| && FirstMatch(ctx.windows, ctx.windows[i], i)
    ensures Run(ctx, [ButtonPressEvent(ctx.windows[i])])
         == Outcome(Running, SendKeys(ctx.target, ctx.root, ctx.keymap, ctx.buttons[i].keys), 1)
  {
    var e := ButtonPressEvent(ctx.windows[i]);
    var keys := SendKeys(ctx.target, ctx.root, ctx.keymap, ctx.buttons[i].keys);
    assert Step(ctx, e) == Continue(keys);
    assert START.sent + keys == keys;
    var o := Feed(START, Continue(keys));
    assert o == Outcome(Running, keys, 1);
    assert [e][1..] == [];
    assert Run(ctx, [e]) == Loop(ctx, o, []);
  }

  /** Pressing the same button twice injects its keys twice, identically. */
  lemma PressTwice(ctx: Context, i: nat)
    requires Covered(ctx)
    requires i < |ctx.windows| && FirstMatch(ctx.windows, ctx.windows[i], i)
    ensures var keys := SendKeys(ctx.target, ctx.root, ctx.keymap, ctx.buttons[i].keys);
      Run(ctx, [ButtonPressEvent(ctx.windows[i]), ButtonPressEvent(ctx.windows[i])])
        == Outcome(Running, keys + keys, 2)
  {
    var p := ButtonPressEvent(ctx.windows[i]);
    PressOnButton(ctx, i);
    RunAppend(ctx, [p], [p]);
  }

  /** A position holding `w` with no earlier one is the only such position. */
  lemma FirstMatchUnique(windows: seq<WindowId>, w: WindowId, i: int, j: int)
    requires FirstMatch(windows, w, i) && FirstMatch(windows, w, j)
    ensures i == j
  {
  }

  /** Reading one more event while Running feeds its reaction to the state. */
  lemma RunSnoc(ctx: Context, a: seq<XEvent>, e: XEvent)
    requires Covered(ctx) && Run(ctx, a).state == Running
    ensures Run(ctx, a + [e]) == Feed(Run(ctx, a), Step(ctx, e))
  {
    LoopAppend(ctx, START, a, [e]);
    assert [e][1..] == [];
  }

  /** The scan over `buttonWindows` as written: `i` counts up, and the first
      window equal to the clicked one ends the scan. */
  method ScanWindows(windows: seq<WindowId>, w: WindowId) returns (r: Option<nat>)
    ensures r == FindButton(windows, w)
  {
    for i := 0 to |windows|
      invariant forall j :: 0 <= j < i ==> windows[j] != w
    {
      if windows[i] == w {
        r := Some(i);
        FirstMatchUnique(windows, w, i, FindButton(windows, w).value);
        return;
      }
    }
    r := None;
  }

  /** The event loop as written: read an event, scan for the pressed button
      and inject its keys, or leave the loop on a close request. Over a finite
      trace it computes what `Run` states. */
  method EventLoop(ctx: Context, events: seq<XEvent>) returns (o: Outcome)
    requires Covered(ctx)
    ensures o == Run(ctx, events)
  {
    o := START;
    var k := 0;
    while k < |events|
      invariant k <= |events|
      invariant o.state == Running && o == Run(ctx, events[..k])
    {
      var e := events[k];
      RunSnoc(ctx, events[..k], e);
      assert events[..k + 1] == events[..k] + [e];
      match e {
        case ButtonPressEvent(w) =>
          var found := ScanWindows(ctx.windows, w);
          if found.Some? {
            var keys := SendKeysLoop(ctx.target, ctx.root, ctx.keymap, ctx.buttons[found.value].keys);
            o := o.(sent := o.sent + keys, consumed := o.consumed + 1);
          } else {
            o := o.(consumed := o.consumed + 1);
            assert o.sent + [] == o.sent;
          }
        case ClientMessageEvent(_, _, data0) =>
          LongRoundTrip(ctx.wmDeleteWindow, data0);
          if data0 == AsLong(ctx.wmDeleteWindow) {
            o := o.(state := Terminated, consumed := o.consumed + 1);
            RunIgnoresAfterClose(ctx, events[..k + 1], events[k + 1..]);
            assert events[..k + 1] + events[k + 1..] == events;
            return;
          }
          o := o.(consumed := o.consumed + 1);
          assert o.sent + [] == o.sent;
        case OtherEvent =>
          o := o.(consumed := o.consumed + 1);
          assert o.sent + [] == o.sent;
      }
      k := k + 1;
    }
    assert events[..k] == events;
  }
}

=== FILE: keys.dfy ===
/** The key injector (`sendKeys`): a key-symbol sequence becomes a press and
    a release event per key, in order, each sent with `XSendEvent` to the
    target window. */
module Keys {
  import opened XTypes

  /** The server's current keyboard mapping, which the panel cannot see:
      the key code of each key symbol that has a key. */
  type Keymap = map<KeySym, KeyCode>

  /** `XKeysymToKeycode`: the key code bound to `k`, or 0 when no key
      produces it. */
  function KeysymToKeycode(keymap: Keymap, k: KeySym): KeyCode {
    if k in keymap then keymap[k] else 0
  }

  datatype KeyKind = Press | Release

  /** The fields of the synthetic `XKeyEvent` that `sendKeys` fills in. The
      pointer coordinates (`x`, `y`, `x_root`, `y_root`) are always 0 and are
      not carried. */
  datatype KeyEvent = KeyEvent(
    kind: KeyKind,
    window: WindowId,
    root: WindowId,
    subwindow: WindowId,
    time: int,
    keycode: KeyCode)

  /** One `XSendEvent` call: destination, propagate flag, event mask, event. */
  datatype SentEvent = SentEvent(destination: WindowId, propagate: bool, mask: int, event: KeyEvent)

  /** The event mask `XSendEvent` is called with for this kind. */
  function MaskFor(k: KeyKind): int {
    match k
    case Press => KEY_PRESS_MASK
    case Release => KEY_RELEASE_MASK
  }

  /** The `XSendEvent` call that delivers one synthetic key event of kind
      `kind` for key code `code` to `target`. */
  function Synthetic(target: WindowId, root: WindowId, kind: KeyKind, code: KeyCode): SentEvent {
    SentEvent(target, true, MaskFor(kind), KeyEvent(kind, target, root, NONE, CURRENT_TIME, code))
  }

  /** The `j`th event `sendKeys` emits for `keys`: the press (even `j`) or
      release (odd `j`) of key `j / 2`. */
  function NthEvent(target: WindowId, root: WindowId, keymap: Keymap, keys: seq<KeySym>, j: nat): SentEvent
    requires j < 2 * |keys|
  {
    Synthetic(target, root, if j % 2 == 0 then Press else Release, KeysymToKeycode(keymap, keys[j / 2]))
  }

  /** The events `sendKeys(display, target, keys)` sends, in order. */
  function SendKeys(target: WindowId, root: WindowId, keymap: Keymap, keys: seq<KeySym>): (sent: seq<SentEvent>)
    ensures |sent| == 2 * |keys|
    ensures forall j :: 0 <= j < |sent| ==> sent[j] == NthEvent(target, root, keymap, keys, j)
  {
    if |keys| == 0 then []
    else
      var code := KeysymToKeycode(keymap, keys[0]);
      var rest := SendKeys(target, root, keymap, keys[1..]);
      assert forall j :: 2 <= j < 2 * |keys| ==> (j - 2) / 2 == j / 2 - 1 && (j - 2) % 2 == j % 2;
      [Synthetic(target, root, Press, code), Synthetic(target, root, Release, code)] + rest
  }

  /** A well-formed injection stream: events come in press/release pairs for
      the same key code, every `XSendEvent` call names `target` as its
      destination, is propagated, carries
      the mask of its kind, names `target` as its window and has no subwindow. */
  predicate Paired(sent: seq<SentEvent>, target: WindowId) {
    && |sent| % 2 == 0
    && (forall j :: 0 <= j < |sent| ==>
          && sent[j].destination == target
          && sent[j].event.window == target
          && sent[j].propagate
          && sent[j].event.subwindow == NONE
          && sent[j].mask == MaskFor(sent[j].event.kind)
          && sent[j].event.kind == (if j % 2 == 0 then Press else Release))
    && (forall p :: 0 <= p < |sent| / 2 ==> sent[2 * p].event.keycode == sent[2 * p + 1].event.keycode)
  }

  /** The key codes of the press events of a stream, in order. */
  function PressedCodes(sent: seq<SentEvent>): (codes: seq<KeyCode>)
    ensures |codes| <= |sent|
  {
    if |sent| == 0 then []
    else if sent[0].event.kind == Press then [sent[0].event.keycode] + PressedCodes(sent[1..])
    else PressedCodes(sent[1..])
  }

  /** Whatever the target, and whether or not it names a live window,
      `sendKeys` emits a well-formed stream addressed to it. */
  lemma SendKeysPaired(target: WindowId, root: WindowId, keymap: Keymap, keys: seq<KeySym>)
    ensures Paired(SendKeys(target, root, keymap, keys), target)
  {
    var sent := SendKeys(target, root, keymap, keys);
    forall p | 0 <= p < |sent| / 2
      ensures sent[2 * p].event.keycode == sent[2 * p + 1].event.keycode
    {
      assert (2 * p) / 2 == p && (2 * p + 1) / 2 == p;
    }
  }

  /** Reading the presses back out of `sendKeys`'s stream recovers the key
      sequence, translated key by key and in the original order. */
  lemma {:induction false} PressedCodesOfSendKeys(target: WindowId, root: WindowId, keymap: Keymap, keys: seq<KeySym>)
    ensures PressedCodes(SendKeys(target, root, keymap, keys)) == seq(|keys|, i requires 0 <= i < |keys| => KeysymToKeycode(keymap, keys[i]))
  {
    var sent := SendKeys(target, root, keymap, keys);
    if |keys| > 0 {
      PressedCodesOfSendKeys(target, root, keymap, keys[1..]);
      assert sent[0].event.kind == Press;
      assert sent[1].event.kind == Release;
      assert sent[1..][1..] == SendKeys(target, root, keymap, keys[1..]);
    }
  }

  /** `sendKeys` distributes over concatenation: injecting `a + b` is
      injecting `a` and then `b`, with nothing shared between the two runs. */
  lemma {:induction false} SendKeysAppend(target: WindowId, root: WindowId, keymap: Keymap, a: seq<KeySym>, b: seq<KeySym>)
    ensures SendKeys(target, root, keymap, a + b)
         == SendKeys(target, root, keymap, a) + SendKeys(target, root, keymap, b)
  {
    if |a| == 0 {
      assert a + b == b;
    } else {
      assert (a + b)[0] == a[0] && (a + b)[1..] == a[1..] + b;
      SendKeysAppend(target, root, keymap, a[1..], b);
    }
  }

  /** The loop of `sendKeys` as written: one event structure, its key code
      set per key, its type switched between the two sends. */
  method SendKeysLoop(target: WindowId, root: WindowId, keymap: Keymap, keys: seq<KeySym>)
    returns (sent: seq<SentEvent>)
    ensures sent == SendKeys(target, root, keymap, keys)
  {
    var event := KeyEvent(Press, target, root, NONE, CURRENT_TIME, 0);
    sent := [];
    for i := 0 to |keys|
      invariant sent == SendKeys(target, root, keymap, keys[..i])
      invariant event.window == target && event.root == root
      invariant event.subwindow == NONE && event.time == CURRENT_TIME
    {
      event := event.(keycode := KeysymToKeycode(keymap, keys[i]));
      event := event.(kind := Press);
      sent := sent + [SentEvent(target, true, KEY_PRESS_MASK, event)];
      event := event.(kind := Release);
      sent := sent + [SentEvent(target, true, KEY_RELEASE_MASK, event)];
      SendKeysAppend(target, root, keymap, keys[..i], [keys[i]]);
      assert keys[..i + 1] == keys[..i] + [keys[i]];
    }
    assert keys[..|keys|] == keys;
  }
}

=== FILE: overlay.dfy ===
/** The overlay surface: the top-level window, centred on the default
    screen, and one mapped child window per registry button, created in
    registry order so that the list of child ids lines up with the registry. */
module Overlay {
  import opened XTypes
  import opened XServer
  import opened Registry

  /** The overlay window's title. */
  const TITLE: string := "X11 Buttons"

  /** C integer division, which truncates toward zero (Dafny's `/` is
      Euclidean and differs for a negative dividend). */
  function CDiv(a: int, b: int): (q: int)
    requires b > 0
    ensures a >= 0 ==> 0 <= a - q * b < b
    ensures a < 0 ==> -b < a - q * b <= 0
  {
    if a >= 0 then a / b else -((-a) / b)
  }

  /** The origin coordinate `(screen - size) / 2` that centres a window of
      `size` pixels on a screen of `screen` pixels. */
  function CentreOrigin(screen: Dim, size: Dim): (x: int)
    ensures screen >= size ==> 0 <= x && x + size <= screen
    ensures -0x8000_0000 <= x < 0x8000_0000
  {
    CDiv(screen - size, 2)
  }

  /** The margins either side of a centred window differ by at most one
      pixel. The odd pixel goes after the window (right, bottom) when it fits
      on the screen, and before it when the window is larger than the screen,
      because the division truncates toward zero. */
  lemma CentredWithinOnePixel(screen: Dim, size: Dim)
    ensures var x := CentreOrigin(screen, size);
      var before := x;
      var after := screen - (x + size);
      && (screen >= size ==> 0 <= after - before <= 1)
      && (screen < size ==> -1 <= after - before <= 0)
  {
  }

  /** Truncating and Euclidean division agree on a non-negative dividend, and
      differ by one on a negative odd dividend. */
  lemma CDivVersusEuclidean(a: int)
    ensures a >= 0 ==> CDiv(a, 2) == a / 2
    ensures a < 0 && a % 2 == 1 ==> CDiv(a, 2) == a / 2 + 1
    ensures a < 0 && a % 2 == 0 ==> CDiv(a, 2) == a / 2
  {
  }

  /** `createWindow(display, width, height)`: a mapped top-level window of
      the requested size, centred on the default screen, titled, and taking
      part in the `WM_DELETE_WINDOW` protocol. */
  function CreateWindow(d: Display, width: Dim, height: Dim): (r: Created)
    requires Valid(d)
    ensures Valid(r.display) && Extends(d, r.display)
    ensures r.id != NONE && r.id != d.root && !IsCreated(d, r.id)
    ensures r.id == NextId(d) && NextId(r.display) == r.id + 1
    ensures AttrsOf(r.display, r.id)
         == WindowAttrs(d.root,
                        Rect(CentreOrigin(d.screenWidth, width), CentreOrigin(d.screenHeight, height), width, height),
                        TITLE, [d.wmDeleteWindow], NO_EVENT_MASK, true)
  {
    var x := CDiv(d.screenWidth - width, 2);
    var y := CDiv(d.screenHeight - height, 2);
    var c := CreateSimpleWindow(d, d.root, Rect(x, y, width, height));
    var d1 := StoreName(c.display, c.id, TITLE);
    var d2 := SetWMProtocols(d1, c.id, [d1.wmDeleteWindow]);
    var d3 := MapWindow(d2, c.id);
    Created(c.id, d3)
  }

  /** `createButton(display, parent, button)` as evidently intended: a
      mapped child of `parent` occupying exactly the button's rectangle, on
      which this client selects `ButtonPress` so that clicks reach the event
      loop. The label is neither measured nor drawn. */
  function CreateButton(d: Display, parent: WindowId, b: Button): (r: Created)
    requires Valid(d)
    ensures Valid(r.display) && Extends(d, r.display)
    ensures r.id == NextId(d) && NextId(r.display) == r.id + 1
    ensures AttrsOf(r.display, r.id) == WindowAttrs(parent, b.bounds, "", [], BUTTON_PRESS_MASK, true)
    ensures SelectsButtonPress(AttrsOf(r.display, r.id))
  {
    var c := CreateSimpleWindow(d, parent, b.bounds);
    var d1 := SelectInput(c.display, c.id, BUTTON_PRESS_MASK);
    Created(c.id, MapWindow(d1, c.id))
  }

  /** The window part of `createButton` as written: the child window is
      created and mapped, but no event mask is ever selected on it. */
  function CreateButtonUnselected(d: Display, parent: WindowId, b: Button): (r: Created)
    requires Valid(d)
    ensures Valid(r.display) && Extends(d, r.display)
    ensures r.id == NextId(d) && NextId(r.display) == r.id + 1
    ensures AttrsOf(r.display, r.id) == WindowAttrs(parent, b.bounds, "", [], NO_EVENT_MASK, true)
  {
    var c := CreateSimpleWindow(d, parent, b.bounds);
    Created(c.id, MapWindow(c.display, c.id))
  }

  /** A button window created as written does not select `ButtonPress`, and
      neither does the overlay it sits in, so the server reports a click on
      it to no window of this client; the intended button window does
      select it. */
  lemma ButtonPressSelection(d: Display, width: Dim, height: Dim, b: Button)
    requires Valid(d)
    ensures var w := CreateWindow(d, width, height);
      var u := CreateButtonUnselected(w.display, w.id, b);
      var c := CreateButton(w.display, w.id, b);
      && !SelectsButtonPress(AttrsOf(u.display, w.id))
      && !SelectsButtonPress(AttrsOf(u.display, u.id))
      && SelectsButtonPress(AttrsOf(c.display, c.id))
  {
  }

  /** Which out-parameters of `XTextExtents` the caller passes as real
      pointers rather than NULL: direction, font ascent, font descent and the
      overall metrics. */
  datatype ExtentsOuts = ExtentsOuts(direction: bool, fontAscent: bool, fontDescent: bool, overall: bool)

  /** `XTextExtents` stores through all four out-parameters without checking
      them, so it returns only when none of them is NULL. */
  predicate ExtentsReturns(outs: ExtentsOuts) {
    outs.direction && outs.fontAscent && outs.fontDescent && outs.overall
  }

  /** The label block of `createButton` passes NULL for direction, font
      ascent and font descent, and a local for the overall metrics. */
  const LABEL_OUTS: ExtentsOuts := ExtentsOuts(false, false, false, true)

  /** Where a call that may crash ended: it crashed, leaving the server with
      `display`, after creating `window`; or it returned. */
  datatype Progress = Crashed(display: Display, window: WindowId) | Returned(result: Created)

  /** `createButton` as written: the window is created, then the label block
      calls `XTextExtents` before the window is mapped. Every call crashes
      there, leaving the new child created but unmapped, with no event
      selected. */
  function CreateButtonAsWritten(d: Display, parent: WindowId, b: Button): (r: Progress)
    requires Valid(d)
    ensures r.Crashed?
    ensures Valid(r.display) && Extends(d, r.display) && NextId(r.display) == NextId(d) + 1
    ensures r.window == NextId(d)
    ensures AttrsOf(r.display, r.window) == WindowAttrs(parent, b.bounds, "", [], NO_EVENT_MASK, false)
  {
    var c := CreateSimpleWindow(d, parent, b.bounds);
    if !ExtentsReturns(LABEL_OUTS) then Crashed(c.display, c.id)
    else Returned(Created(c.id, MapWindow(c.display, c.id)))
  }

  /** As written, the setup ends in the first `createButton` call: the
      overlay is up and mapped, the first button's window exists unmapped, and
      no other window has been created, so no button window is ever mapped. */
  lemma LabelBlockCrashes(d: Display)
    requires Valid(d)
    ensures var w := CreateWindow(d, PANEL_WIDTH, PANEL_HEIGHT);
      var r := CreateButtonAsWritten(w.display, w.id, BUTTONS[0]);
      && r.Crashed?
      && NextId(r.display) == NextId(d) + 2
      && AttrsOf(r.display, w.id).mapped
      && r.window == w.id + 1
      && !AttrsOf(r.display, r.window).mapped
  {
  }

  /** The button windows and the display after they were created. */
  datatype CreatedAll = CreatedAll(ids: seq<WindowId>, display: Display)

  /** `ids[i]` is a mapped child of `parent` with `buttons[i]`'s rectangle. */
  predicate AlignedWith(d: Display, parent: WindowId, buttons: seq<Button>, ids: seq<WindowId>) {
    && |ids| == |buttons|
    && forall i :: 0 <= i < |ids| ==>
         IsCreated(d, ids[i]) && AttrsOf(d, ids[i]) == WindowAttrs(parent, buttons[i].bounds, "", [], BUTTON_PRESS_MASK, true)
  }

  /** The ids are pairwise distinct (in fact increasing). */
  predicate Increasing(ids: seq<WindowId>) {
    forall i, j :: 0 <= i < j < |ids| ==> ids[i] < ids[j]
  }

  /** The setup loop: one `createButton` per registry entry, in registry
      order, each id appended to `buttonWindows`. The windows get the next
      free ids in order, line up with the buttons, and no earlier window
      changes. */
  function CreateButtons(d: Display, parent: WindowId, buttons: seq<Button>): (r: CreatedAll)
    requires Valid(d)
    ensures Valid(r.display) && Extends(d, r.display)
    ensures |r.ids| == |buttons| && NextId(r.display) == NextId(d) + |buttons|
    ensures forall i :: 0 <= i < |r.ids| ==> r.ids[i] == NextId(d) + i
    ensures AlignedWith(r.display, parent, buttons, r.ids)
    decreases |buttons|
  {
    if |buttons| == 0 then CreatedAll([], d)
    else
      var first := CreateButton(d, parent, buttons[0]);
      var rest := CreateButtons(first.display, parent, buttons[1..]);
      ExtendsTransitive(d, first.display, rest.display);
      ConsAligned(first.display, rest.display, parent, buttons, first.id, rest.ids);
      CreatedAll([first.id] + rest.ids, rest.display)
  }

  /** Prepending the window created for the first button, which later
      creations leave alone, keeps the alignment. */
  lemma ConsAligned(d: Display, d': Display, parent: WindowId, buttons: seq<Button>, id: WindowId, ids: seq<WindowId>)
    requires |buttons| > 0 && Extends(d, d')
    requires IsCreated(d, id) && AttrsOf(d, id) == WindowAttrs(parent, buttons[0].bounds, "", [], BUTTON_PRESS_MASK, true)
    requires AlignedWith(d', parent, buttons[1..], ids)
    ensures AlignedWith(d', parent, buttons, [id] + ids)
  {
    var all := [id] + ids;
    forall i | 0 <= i < |all|
      ensures IsCreated(d', all[i])
      ensures AttrsOf(d', all[i]) == WindowAttrs(parent, buttons[i].bounds, "", [], BUTTON_PRESS_MASK, true)
    {
      if i > 0 {
        assert all[i] == ids[i - 1] && buttons[i] == buttons[1..][i - 1];
      }
    }
  }

  /** Consecutive ids are increasing, so a window id identifies at most one
      button. */
  lemma ConsecutiveIncreasing(ids: seq<WindowId>, first: WindowId)
    requires forall i :: 0 <= i < |ids| ==> ids[i] == first + i
    ensures Increasing(ids)
  {
  }
}

=== FILE: program.dfy ===
/** `main`: create the overlay and one window per registry button, take the
    target window, then run the event loop until the window manager asks the
    overlay to close, and exit with status 0. */
module Program {
  import opened XTypes
  import opened XServer
  import opened Keys
  import opened Registry
  import opened Overlay
  import opened Dispatch

  /** The panel once set up: the overlay window, the display after all
      windows were created, and what the event loop works with. */
  datatype Session = Session(overlay: WindowId, display: Display, ctx: Context)

  /** The set-up part of `main`. `target` is whatever the selection-owner
      query for `_NET_ACTIVE_WINDOW` returned, possibly `None` or a stale id;
      `keymap` is the server's keyboard mapping. */
  function Setup(d: Display, target: WindowId, keymap: Keymap): (s: Session)
    requires Valid(d)
    ensures Valid(s.display) && Extends(d, s.display)
    ensures s.ctx.buttons == BUTTONS && AlignedWith(s.display, s.overlay, BUTTONS, s.ctx.windows)
    ensures Increasing(s.ctx.windows)
    ensures !IsCreated(d, s.overlay) && s.overlay !in s.ctx.windows
    ensures d.root !in s.ctx.windows && NONE !in s.ctx.windows
    ensures IsCreated(s.display, s.overlay)
         && AttrsOf(s.display, s.overlay)
         == WindowAttrs(d.root,
                        Rect(CentreOrigin(d.screenWidth, PANEL_WIDTH), CentreOrigin(d.screenHeight, PANEL_HEIGHT),
                             PANEL_WIDTH, PANEL_HEIGHT),
                        TITLE, [d.wmDeleteWindow], NO_EVENT_MASK, true)
    ensures s.ctx == Context(BUTTONS, s.ctx.windows, target, d.root, d.wmDeleteWindow, keymap)
  {
    var w := CreateWindow(d, PANEL_WIDTH, PANEL_HEIGHT);
    var bs := CreateButtons(w.display, w.id, BUTTONS);
    ExtendsTransitive(d, w.display, bs.display);
    ConsecutiveIncreasing(bs.ids, w.id + 1);
    Session(w.id, bs.display, Context(BUTTONS, bs.ids, target, d.root, d.wmDeleteWindow, keymap))
  }

  /** How the process ends: with an exit status, or still blocked in
      `XNextEvent` when the trace runs out. */
  datatype Exit = Exited(code: int) | Waiting

  /** Everything `main` did over one trace. */
  datatype ProgramRun = ProgramRun(session: Session, outcome: Outcome, exit: Exit)

  /** `main` over a finite trace. It exits with status 0 exactly when the
      trace holds a close request, and otherwise has read every event; every
      `XSendEvent` call it makes names `target` as its destination. */
  function Main(d: Display, target: WindowId, keymap: Keymap, events: seq<XEvent>): (r: ProgramRun)
    requires Valid(d)
    ensures r.exit == Exited(0) <==> !NoClose(d.wmDeleteWindow, events)
    ensures r.exit == Waiting <==> NoClose(d.wmDeleteWindow, events)
    ensures r.exit == Waiting ==> r.outcome.consumed == |events|
    ensures forall j :: 0 <= j < |r.outcome.sent| ==> r.outcome.sent[j].destination == target
  {
    var s := Setup(d, target, keymap);
    var o := Run(s.ctx, events);
    RunStopsAtFirstClose(s.ctx, events);
    RunPaired(s.ctx, events);
    ProgramRun(s, o, if o.state == Terminated then Exited(0) else Waiting)
  }

  /** A click on the `i`th button window injects exactly the `i`th button's
      keys, every `XSendEvent` call naming `target` as its destination
      whatever `target` is (`None` included), and the loop keeps running. */
  lemma ClickInjectsButtonKeys(d: Display, target: WindowId, keymap: Keymap, i: nat)
    requires Valid(d) && i < |BUTTONS|
    ensures var s := Setup(d, target, keymap);
      Run(s.ctx, [ButtonPressEvent(s.ctx.windows[i])])
        == Outcome(Running, SendKeys(target, d.root, keymap, BUTTONS[i].keys), 1)
  {
    var s := Setup(d, target, keymap);
    forall j | 0 <= j < i
      ensures s.ctx.windows[j] != s.ctx.windows[i]
    {
      assert s.ctx.windows[j] < s.ctx.windows[i];
    }
    PressOnButton(s.ctx, i);
  }

  /** The "Combo" key sequence expands to press and release of L, of H, of
      L, of H, of L and of H, in that order. */
  lemma ComboExpansion(target: WindowId, root: WindowId, keymap: Keymap)
    ensures var sent := SendKeys(target, root, keymap, COMBO_KEYS);
      && |sent| == 12
      && forall p :: 0 <= p < 6 ==>
           var code := KeysymToKeycode(keymap, if p % 2 == 0 then XK_L else XK_H);
           sent[2 * p] == Synthetic(target, root, Press, code)
           && sent[2 * p + 1] == Synthetic(target, root, Release, code)
  {
    var sent := SendKeys(target, root, keymap, COMBO_KEYS);
    forall p | 0 <= p < 6
      ensures var code := KeysymToKeycode(keymap, if p % 2 == 0 then XK_L else XK_H);
        sent[2 * p] == Synthetic(target, root, Press, code)
        && sent[2 * p + 1] == Synthetic(target, root, Release, code)
    {
      assert (2 * p) / 2 == p && (2 * p + 1) / 2 == p;
    }
  }

  /** Clicking "Combo" makes exactly its twelve `XSendEvent` calls, each
      naming the target as its destination. */
  lemma ClickComboSendsTwelve(d: Display, target: WindowId, keymap: Keymap)
    requires Valid(d)
    ensures var s := Setup(d, target, keymap);
      Run(s.ctx, [ButtonPressEvent(s.ctx.windows[5])])
        == Outcome(Running, SendKeys(target, d.root, keymap, COMBO_KEYS), 1)
    ensures |SendKeys(target, d.root, keymap, COMBO_KEYS)| == 12
  {
    ClickInjectsButtonKeys(d, target, keymap, 5);
    ComboExpansion(target, d.root, keymap);
  }

  /** A click on the overlay itself, on the root window, or on any other
      window that is not a button window sends nothing. */
  lemma ClickElsewhereIgnored(d: Display, target: WindowId, keymap: Keymap, w: WindowId)
    requires Valid(d)
    requires var s := Setup(d, target, keymap); w == s.overlay || w == d.root || w !in s.ctx.windows
    ensures var s := Setup(d, target, keymap);
      Run(s.ctx, [ButtonPressEvent(w)]) == Outcome(Running, [], 1)
  {
    var s := Setup(d, target, keymap);
    LoopQuiet(s.ctx, START, [ButtonPressEvent(w)]);
  }

  /** Shutdown: after the first close request `main` exits with status 0,
      and the events queued behind it change nothing. */
  lemma ShutdownIgnoresQueuedEvents(d: Display, target: WindowId, keymap: Keymap,
                                    a: seq<XEvent>, close: XEvent, b: seq<XEvent>)
    requires Valid(d)
    requires NoClose(d.wmDeleteWindow, a)
    requires IsClose(d.wmDeleteWindow, close)
    ensures var r := Main(d, target, keymap, a + [close] + b);
      && r.exit == Exited(0)
      && r.outcome.consumed == |a| + 1
      && r.outcome.sent == Main(d, target, keymap, a).outcome.sent
  {
    var s := Setup(d, target, keymap);
    CloseTerminates(s.ctx, a, close, b);
  }
}

=== FILE: registry.dfy ===
/** The button registry: the six buttons compiled into the panel, each a
    rectangle in overlay coordinates, a label and the key symbols it sends. */
module Registry {
  import opened XTypes

  /** One button: its rectangle within the overlay, its label text (drawn only,
      never consulted) and the keys a click on it injects. */
  datatype Button = Button(bounds: Rect, text: string, keys: seq<KeySym>)

  // Key symbols (X11/keysymdef.h)
  const XK_A: KeySym := 0x0041
  const XK_D: KeySym := 0x0044
  const XK_H: KeySym := 0x0048
  const XK_L: KeySym := 0x004c
  const XK_S: KeySym := 0x0053

  /** The overlay window's fixed size. */
  const PANEL_WIDTH: Dim := 340
  const PANEL_HEIGHT: Dim := 130

  const COMBO_KEYS: seq<KeySym> := [XK_L, XK_H, XK_L, XK_H, XK_L, XK_H]

  /** The registry, in the order the buttons are created and looked up. */
  const BUTTONS: seq<Button> := [
    Button(Rect(10, 10, 100, 50), "S", [XK_S]),
    Button(Rect(120, 10, 100, 50), "D", [XK_D]),
    Button(Rect(230, 10, 100, 50), "A", [XK_A]),
    Button(Rect(10, 70, 100, 50), "H", [XK_H]),
    Button(Rect(120, 70, 100, 50), "L", [XK_L]),
    Button(Rect(230, 70, 100, 50), "Combo", COMBO_KEYS)
  ]

  /** Two rectangles share no point. */
  predicate Disjoint(a: Rect, b: Rect) {
    || a.x + a.width <= b.x || b.x + b.width <= a.x
    || a.y + a.height <= b.y || b.y + b.height <= a.y
  }

  /** A rectangle lies within a `width` by `height` window. */
  predicate Inside(r: Rect, width: int, height: int) {
    0 <= r.x && 0 <= r.y && r.x + r.width <= width && r.y + r.height <= height
  }

  /** A button is well formed when it has a positive size and at least one key. */
  predicate WellFormed(b: Button) {
    b.bounds.width > 0 && b.bounds.height > 0 && |b.keys| >= 1
  }

  /** The registry's data meets the invariants the panel relies on without
      checking them: every button is well formed and lies inside the overlay,
      and no two buttons overlap, so a click lands on at most one button. */
  lemma RegistryWellFormed()
    ensures |BUTTONS| == 6
    ensures forall i :: 0 <= i < |BUTTONS| ==>
      WellFormed(BUTTONS[i]) && Inside(BUTTONS[i].bounds, PANEL_WIDTH, PANEL_HEIGHT)
    ensures forall i, j :: 0 <= i < j < |BUTTONS| ==> Disjoint(BUTTONS[i].bounds, BUTTONS[j].bounds)
  {
  }

  /** The labels name the buttons' keys; "Combo" sends L, H three times. */
  lemma RegistryKeys()
    ensures forall i :: 0 <= i < 5 ==> |BUTTONS[i].keys| == 1
    ensures BUTTONS[0].keys == [XK_S] && BUTTONS[1].keys == [XK_D] && BUTTONS[2].keys == [XK_A]
    ensures BUTTONS[3].keys == [XK_H] && BUTTONS[4].keys == [XK_L]
    ensures BUTTONS[5].text == "Combo" && |BUTTONS[5].keys| == 6
    ensures forall p :: 0 <= p < 3 ==> BUTTONS[5].keys[2 * p] == XK_L && BUTTONS[5].keys[2 * p + 1] == XK_H
  {
  }
}

=== FILE: xserver.dfy ===
/** The part of the X server's state the panel touches: the root window and
    size of the default screen, the `WM_DELETE_WINDOW` atom, and the windows
    this client has created. The server hands out window ids from a counter:
    the `k`th window the client creates gets id `base + k`, above the root.
    Everything else the server does is left out. */
module XServer {
  import opened XTypes

  /** The attributes of one created window that the panel sets, including
      the event mask this client has selected on it. */
  datatype WindowAttrs = WindowAttrs(
    parent: WindowId,
    bounds: Rect,
    name: string,
    protocols: seq<Atom>,
    eventMask: int,
    mapped: bool)

  /** This client has selected `ButtonPress` events on the window, so the
      server reports mouse presses in it to this client. */
  predicate SelectsButtonPress(a: WindowAttrs) {
    (a.eventMask / BUTTON_PRESS_MASK) % 2 == 1
  }

  /** A display connection with its default screen; `created` lists the
      client's windows in creation order. */
  datatype Display = Display(
    root: WindowId,
    screenWidth: Dim,
    screenHeight: Dim,
    wmDeleteWindow: Atom,
    base: WindowId,
    created: seq<WindowAttrs>)

  /** The root window is a real window (not `None`) and is not one of the
      ids the client's windows are drawn from. */
  predicate Valid(d: Display) {
    NONE < d.root < d.base
  }

  /** The id the next created window will get. */
  function NextId(d: Display): WindowId {
    d.base + |d.created|
  }

  /** `w` names a window this client created. */
  predicate IsCreated(d: Display, w: WindowId) {
    d.base <= w < NextId(d)
  }

  /** The attributes of a created window. */
  function AttrsOf(d: Display, w: WindowId): WindowAttrs
    requires IsCreated(d, w)
  {
    d.created[w - d.base]
  }

  /** The two displays have the same screen, root, atom and id counter base. */
  predicate SameScreen(d: Display, d': Display) {
    && d'.root == d.root
    && d'.screenWidth == d.screenWidth
    && d'.screenHeight == d.screenHeight
    && d'.wmDeleteWindow == d.wmDeleteWindow
    && d'.base == d.base
  }

  /** `d'` is `d` with possibly more windows: every window of `d` is still
      there with the same attributes. */
  predicate Extends(d: Display, d': Display) {
    && SameScreen(d, d')
    && |d.created| <= |d'.created|
    && forall k :: 0 <= k < |d.created| ==> d'.created[k] == d.created[k]
  }

  lemma ExtendsTransitive(d1: Display, d2: Display, d3: Display)
    requires Extends(d1, d2) && Extends(d2, d3)
    ensures Extends(d1, d3)
  {
  }

  /** A newly created window and the display after its creation. */
  datatype Created = Created(id: WindowId, display: Display)

  /** `XCreateSimpleWindow`: a new unmapped, unnamed child of `parent` with
      no events selected. Its id is fresh (neither `None`, nor the root, nor
      any window created before), and no other window changes. */
  function CreateSimpleWindow(d: Display, parent: WindowId, bounds: Rect): (r: Created)
    requires Valid(d)
    ensures Valid(r.display) && Extends(d, r.display)
    ensures r.id != NONE && r.id != d.root && !IsCreated(d, r.id)
    ensures r.id == NextId(d) && NextId(r.display) == r.id + 1
    ensures AttrsOf(r.display, r.id) == WindowAttrs(parent, bounds, "", [], NO_EVENT_MASK, false)
  {
    Created(NextId(d), d.(created := d.created + [WindowAttrs(parent, bounds, "", [], NO_EVENT_MASK, false)]))
  }

  /** `d'` differs from `d` at most in the attributes of window `w`: same
      screen, same ids, every other window unchanged. */
  ghost predicate OnlyTouches(d: Display, d': Display, w: WindowId) {
    && SameScreen(d, d') && NextId(d') == NextId(d)
    && forall v :: IsCreated(d, v) && v != w ==> AttrsOf(d', v) == AttrsOf(d, v)
  }

  /** Replaces the attributes of a created window. For any other id the
      window table is left alone; the `BadWindow` error the server would
      report, and what it does to the process, are not modelled. */
  function Update(d: Display, w: WindowId, f: WindowAttrs -> WindowAttrs): (d': Display)
    ensures OnlyTouches(d, d', w)
    ensures IsCreated(d, w) ==> AttrsOf(d', w) == f(AttrsOf(d, w))
  {
    if IsCreated(d, w) then d.(created := d.created[w - d.base := f(AttrsOf(d, w))]) else d
  }

  /** `XStoreName`: sets the title of `w` and nothing else. */
  function StoreName(d: Display, w: WindowId, name: string): (d': Display)
    ensures OnlyTouches(d, d', w)
    ensures IsCreated(d, w) ==> AttrsOf(d', w) == AttrsOf(d, w).(name := name)
  {
    Update(d, w, (a: WindowAttrs) => a.(name := name))
  }

  /** `XSetWMProtocols`: replaces the WM protocols of `w` and nothing else. */
  function SetWMProtocols(d: Display, w: WindowId, protocols: seq<Atom>): (d': Display)
    ensures OnlyTouches(d, d', w)
    ensures IsCreated(d, w) ==> AttrsOf(d', w) == AttrsOf(d, w).(protocols := protocols)
  {
    Update(d, w, (a: WindowAttrs) => a.(protocols := protocols))
  }

  /** `XSelectInput`: replaces the event mask of `w` and nothing else. */
  function SelectInput(d: Display, w: WindowId, mask: int): (d': Display)
    ensures OnlyTouches(d, d', w)
    ensures IsCreated(d, w) ==> AttrsOf(d', w) == AttrsOf(d, w).(eventMask := mask)
  {
    Update(d, w, (a: WindowAttrs) => a.(eventMask := mask))
  }

  /** `XMapWindow`: marks `w` mapped and changes nothing else. */
  function MapWindow(d: Display, w: WindowId): (d': Display)
    ensures OnlyTouches(d, d', w)
    ensures IsCreated(d, w) ==> AttrsOf(d', w) == AttrsOf(d, w).(mapped := true)
  {
    Update(d, w, (a: WindowAttrs) => a.(mapped := true))
  }
}

=== FILE: xtypes.dfy ===
/** Values of the X11 client library that the button panel handles without
    interpreting them: resource ids, atoms, key symbols and key codes, the C
    integer widths they travel in, rectangles, and the protocol constants
    (the event masks from X.h) the panel uses. */
module XTypes {

  /** A result that may be absent. */
  datatype Option<+T> = None | Some(value: T)

  const TWO_63: int := 0x8000_0000_0000_0000
  const TWO_64: int := 0x1_0000_0000_0000_0000

  /** C `unsigned long` on an LP64 platform, the representation of an `Atom`. */
  type ULong = x: int | 0 <= x < 0x1_0000_0000_0000_0000

  /** C `long`, the element type of a client message's `data.l` array. */
  type Long = x: int | -0x8000_0000_0000_0000 <= x < 0x8000_0000_0000_0000

  /** A non-negative C `int`: screen and window dimensions. The difference of
      two of them always fits in an `int`, so no wrap-around arises. */
  type Dim = x: int | 0 <= x < 0x8000_0000

  /** A window id (XID), opaque to the panel. */
  type WindowId = nat

  /** An interned atom. */
  type Atom = ULong

  /** A logical key symbol (a `KeySym`, for example `XK_S`). */
  type KeySym = nat

  /** A hardware key code; Xlib's `KeyCode` is an `unsigned char`. */
  type KeyCode = x: int | 0 <= x < 256

  /** The X constant `None`, also the window id of "no window". */
  const NONE: WindowId := 0

  /** The X constant `CurrentTime`. */
  const CURRENT_TIME: int := 0

  // Event masks (X.h)
  const NO_EVENT_MASK: int := 0
  const KEY_PRESS_MASK: int := 1
  const KEY_RELEASE_MASK: int := 2
  const BUTTON_PRESS_MASK: int := 4

  /** A rectangle: top-left corner, width and height. */
  datatype Rect = Rect(x: int, y: int, width: int, height: int)

  /** The C conversion `(long)a` of an `unsigned long`: the two's-complement
      reinterpretation of the same 64 bits. */
  function AsLong(a: ULong): (r: Long)
    ensures a < TWO_63 ==> r == a
    ensures r < 0 <==> a >= TWO_63
    ensures r == a || r == a - TWO_64
  {
    if a < TWO_63 then a else a - TWO_64
  }

  /** The C conversion `(unsigned long)l` of a `long`: reduction modulo 2^64. */
  function AsULong(l: Long): (r: ULong)
    ensures l >= 0 ==> r == l
    ensures r == l || r == l + TWO_64
  {
    if l >= 0 then l else l + TWO_64
  }

  /** The two conversions are inverse to each other, so the cast to `long`
      loses nothing: comparing two atoms through it is comparing the atoms. */
  lemma LongRoundTrip(a: ULong, l: Long)
    ensures AsULong(AsLong(a)) == a
    ensures AsLong(AsULong(l)) == l
    ensures AsLong(a) == l <==> a == AsULong(l)
  {
  }

  /** `(long)` is injective on atoms. */
  lemma AsLongInjective(a: ULong, b: ULong)
    ensures AsLong(a) == AsLong(b) <==> a == b
  {
    LongRoundTrip(a, AsLong(b));
  }
}
